=== FILE: README.md ===
# Trachea fluid scene: tube mesh and particle spawning

A Dafny model of the two sequential routines that set up the trachea
fluid simulation:

- `TubeGenerator.CreateTube` builds the trachea wall as a cylinder grid.
  It has `heightSegments + 1` rings of `radialSegments + 1` vertices. The
  last vertex of each ring repeats the position of the first, so that the
  texture seam has its own column. Each grid cell below the top ring and
  left of the seam becomes two triangles: six entries of a flat index
  buffer.
- `SPH_Compute.SpawnParticlesInBox` fills the particle list. It walks the
  cells `(x, y, z)` of a lattice, with `x` outermost. For each cell it
  appends one particle at rest, placed `2 * particleRadius` apart from the
  lower corner of the spawn box and nudged by a random unit vector scaled
  to a tenth of the radius.
- The 44-byte `Particle` record and the radius powers handed to the
  physics shader are modelled alongside.

Modules:

- `Grid` — row-major flattening of grid coordinates. It is shared by both
  routines.
- `Vectors` — `Vec3` over `real`, plus an integer triple.
- `TubeMesh` — `CreateTube` as a method over arrays, with the reference
  mesh it produces and the topology lemmas.
- `Particles` — the particle record, its byte layout and the radius
  powers.
- `Spawn` — `SpawnParticlesInBox`, the reference particle list, and the
  lemmas about order, count and position.

Each tube vertex is abstracted to the grid coordinates that determine its
position (`ring`, `segment`). It also keeps the parts of its data computed
without trigonometry: the height `y` and the texture coordinates `(u, v)`.

Positions are exact `real` vectors. The random source is an input:
`draws(k)` is the value of `Random.onUnitSphere` drawn for the `k`-th
particle appended.

Two behaviours of `SpawnParticlesInBox` worth noting:

- A non-positive count in `numToSpawn` does not raise an error. The loop
  over that axis runs zero times, and the spawner yields an empty list
  with `num == 0` (`Spawn.SpawnCountIsProduct`).
- The spawn box does not bound the particles. Only its lower corner is
  used. The lattice extends `2 * particleRadius * (count - 1)` from that
  corner whatever the box size. With the inspector defaults, ten
  particles 0.2 apart span 1.8 along z, but the box is 1.5 deep
  (`Spawn.DefaultSpawnOverrunsBoxDepth`).

## Model

| member | source | states |
|---|---|---|
| TubeMesh.CreateTube | Assets/Scripts/TracheaMesh.cs:31-83 | The vertex array has `(radialSegments+1)*(heightSegments+1)` entries. The index buffer has `radialSegments*heightSegments*6` entries. Every vertex slot holds the vertex of the ring and segment its index encodes row-major. Every index slot `s` holds corner `s % 6` of cell number `s / 6`. |
| TubeMesh.BuildRing | Assets/Scripts/TracheaMesh.cs:50-74 | One pass of the inner loop writes the `radialSegments + 1` vertices of ring `i` and, below the top ring, the six slots of each of its `radialSegments` cells. Afterwards the running `vertexIndex` is the id of the first vertex of ring `i + 1`, and every vertex slot and every cell slot written so far holds its reference contents. |
| TubeMesh.WriteVertex | Assets/Scripts/TracheaMesh.cs:56-58 | The vertex write for ring `i`, segment `j` lands in slot `vertexIndex`, which is inside the array. That slot gets the height `i * heightStep` and texture coordinates `(j / radialSegments, i / heightSegments)`, and no other slot changes. |
| TubeMesh.WriteQuad | Assets/Scripts/TracheaMesh.cs:60-71 | The six index writes of cell `(i, j)` land in slots `6*(i*radialSegments+j)` to `+5`, inside the buffer. They hold the cell's corners in order, and no other slot changes. |
| TubeMesh.ExpectedSlotByDivision | Assets/Scripts/TracheaMesh.cs:60-70 | Index slot `s` of the reference buffer holds corner `s % 6` of the cell in ring `(s / 6) / radialSegments`, segment `(s / 6) % radialSegments`, so the reference decodes the write offset `6 * (i * radialSegments + j)` by division. |
| TubeMesh.CountsAreProducts | Assets/Scripts/TracheaMesh.cs:35-39 | The array sizes used throughout are the products the routine allocates. |
| TubeMesh.VertexIndexIsProduct | Assets/Scripts/TracheaMesh.cs:46-75 | The vertex id of ring `i`, segment `j` (the value of the running `vertexIndex` there, by the loop invariant of `CreateTube` and `BuildRing`) is `i*(radialSegments+1)+j`, inside the vertex array. The id one past the last ring is the vertex count, which `CreateTube` asserts the counter reaches. |
| TubeMesh.CellBaseIsProduct | Assets/Scripts/TracheaMesh.cs:65-70 | The first slot of cell `(i, j)` is `6*(i*radialSegments+j)`, the offset the routine writes at. |
| TubeMesh.CellSlots | Assets/Scripts/TracheaMesh.cs:60-70 | The six slots of cell `(i, j)` lie inside the index buffer, and the reference puts the cell's six corners there in order. |
| TubeMesh.CellSlotsDisjoint | Assets/Scripts/TracheaMesh.cs:60-70 | Distinct cells write disjoint runs of six slots. |
| TubeMesh.SlotOwner | Assets/Scripts/TracheaMesh.cs:60-70 | Every slot of the index buffer belongs to some cell below the top ring and left of the seam, so the cells cover the buffer. |
| TubeMesh.TopRingAndSeamWriteNoSlots | Assets/Scripts/TracheaMesh.cs:47-60 | A vertex on the top ring or the seam column gets its vertex slot. No index slot belongs to a cell there. |
| TubeMesh.NextIsSameSegmentNextRing | Assets/Scripts/TracheaMesh.cs:62-63 | `next = start + radialSegments + 1` is the vertex of the same segment in the following ring. |
| TubeMesh.CellIsQuad | Assets/Scripts/TracheaMesh.cs:65-70 | The six corners are the four vertices of the cell's quad, in the order `(start, next, start+1)`, `(start+1, next, next+1)`. The two triangles share the edge `{start+1, next}`. Each triangle has three distinct vertices, all valid ids. |
| TubeMesh.TriangleIndicesInRange | Assets/Scripts/TracheaMesh.cs:60-70 | Every index-buffer entry lies in `[0, vertexCount)`. The last entry is the last vertex. |
| TubeMesh.LastCellIsTopRight | Assets/Scripts/TracheaMesh.cs:60-70 | The cell owning the last six slots is the one below the top ring and left of the seam. |
| TubeMesh.VertexAttributes | Assets/Scripts/TracheaMesh.cs:43-58 | Every vertex lies in the grid. Its texture coordinates lie in the unit square, with `u == 0` on the first column and `u == 1` on the seam. Its height is `v * height`, from 0 on the bottom ring to `height` on the top ring. |
| Particles.AtPosition | Assets/Scripts/SPH_Compute.cs:418-421 | A particle built with only its position set is at rest: pressure, density, force and velocity are zero. Its position is the one given. |
| Particles.LayoutMatchesStride | Assets/Scripts/SPH_Compute.cs:276-284 | Laying the fields out in sequence puts them at byte offsets 0, 4, 8, 20 and 32. The record ends at exactly the 44 bytes declared. |
| Particles.RadiiFor | Assets/Scripts/SPH_Compute.cs:373-377 | The values sent as `radius` ... `radius5` are the particle radius raised to the powers 1 ... 5. |
| Particles.RadiiDecrease | Assets/Scripts/SPH_Compute.cs:373-377 | For a radius in (0, 1), which includes the default 0.1, the five values are positive and strictly decreasing. |
| Spawn.SpawnParticlesInBox | Assets/Scripts/SPH_Compute.cs:406-430 | `num` equals the list length and the spawn count. The list is exactly the reference list: one particle per cell in x-major order, each at rest. |
| Spawn.SpawnColumn | Assets/Scripts/SPH_Compute.cs:415-424 | The innermost loop appends the particles of cells `(x, y, 0)` ... `(x, y, nz-1)`, each with the draw of its own index, and keeps the earlier ones. |
| Spawn.CellOfIndex | Assets/Scripts/SPH_Compute.cs:411-423 | Decoding the list index of an in-range cell gives the cell back. |
| Spawn.SpawnCountIsProduct | Assets/Scripts/SPH_Compute.cs:411-415 | The count is `nx*ny*nz` when all three counts are non-negative, and zero as soon as one is not positive. |
| Spawn.SpawnOrder | Assets/Scripts/SPH_Compute.cs:411-423 | The particle of cell `(x, y, z)` sits at index `(x*ny+y)*nz+z`. It was placed with the draw of that index. |
| Spawn.SpawnedCell | Assets/Scripts/SPH_Compute.cs:411-423 | Every list entry is the particle of some in-range cell, so the cells cover the list. |
| Spawn.SpawnDeterministic | Assets/Scripts/SPH_Compute.cs:406-430 | The same configuration with the same draws gives the same particle list. |
| Spawn.JitterLength | Assets/Scripts/SPH_Compute.cs:417 | The random nudge has length `0.1 * particleRadius`. |
| Spawn.SpawnPositionBounds | Assets/Scripts/SPH_Compute.cs:408-417 | Along each axis a particle lies between the box corner minus the nudge and the corner plus `2 * particleRadius * (count - 1)` plus the nudge. |
| Spawn.DefaultSpawnCount | Assets/Scripts/SPH_Compute.cs:290 | The default 10 x 10 x 10 counts spawn 1000 particles. |
| Spawn.DefaultSpawnOverrunsBoxDepth | Assets/Scripts/SPH_Compute.cs:290-294 | With the inspector defaults, particle 9 is cell `(0, 0, 9)`. Whatever its draw, it lies beyond the far z face of the spawn box. |

## Left out

- Vertex x/z coordinates (`Mathf.Cos`/`Mathf.Sin` of the angle), normals and the angle step are not modelled. A vertex keeps its segment number in their place.
- Single-precision floating point is not modelled; all arithmetic on heights, texture coordinates and positions is exact `real` arithmetic.
- 32-bit integer overflow of the array sizes and offsets is not modelled, because the counts are unbounded integers.
- TubeMesh.CreateTube: requires both segment counts to be positive, so non-positive counts are not modelled. An allocation throws whenever either size, `(radialSegments+1)*(heightSegments+1)` or `radialSegments*heightSegments*6`, is negative. Otherwise a zero count gives non-finite vertex data (the single-precision divisions by it produce infinities or NaN, which `real` cannot represent), except for `(0, -1)` and `(-1, 0)`, where both sizes are 0, no loop body runs and the mesh is empty; and two negative counts give a degenerate mesh: with both counts `-1`, no vertex is written and the index buffer holds six zeros that point into an empty vertex array.
- Engine side effects are not modelled: the `Mesh` object, assigning the arrays to it, `Start`, and repositioning the transform.
- `Random.onUnitSphere` is not modelled. Its values are the `draws` input, and lemmas that need unit length require it of the draws.
- The physics shader is not modelled: density, pressure, forces, integration and collision run in a compute shader that is not part of this model.
- The hard-coded kernel constants sent to the shader are not modelled. They are floating-point literals with no logic.
- GPU plumbing is not modelled: kernel lookup, buffer allocation and binding, the tube-collider buffers, dispatch, `Awake`, `FixedUpdate`, `Update`, `OnDrawGizmos` and the indirect draw arguments.

=== FILE: grid.dfy ===
/**
 Row-major flattening of grid coordinates into a single array index.

 Both routines of the model address flat arrays by grid coordinates: the tube
 builder stores ring `i`, segment `j` at `i * (radialSegments + 1) + j` and
 cell `(i, j)` at `i * radialSegments + j`; the particle spawner appends cell
 `(x, y, z)` at `(x * ny + y) * nz + z`. This module states, once, that such
 an index is in bounds, that it determines its coordinates, and how to
 recover them by division.

 The row offset `RowStart` and the inverse `Unflat` are defined by recursion
 rather than by `*`, `/` and `%`, so that the loops that walk a grid only see
 linear facts; `RowStartIsProduct` connects `RowStart` to the products that
 `CreateTube` and `SpawnParticlesInBox` write, and `UnflatIsDivMod` shows
 that `Unflat` is division with remainder.
 */
module Grid {

  /** The number of iterations of `for (v = 0; v < n; v++)`: `n` when it is
      positive and zero otherwise. */
  function Iterations(n: int): (r: nat)
    ensures n >= 0 ==> r == n
    ensures n <= 0 ==> r == 0
  {
    if n > 0 then n else 0
  }

  /** Index of the first entry of row `row` in a grid `width` entries wide. */
  function RowStart(row: nat, width: nat): nat
  {
    if row == 0 then 0 else RowStart(row - 1, width) + width
  }

  /** Row-major index of (`row`, `col`) in a grid `width` entries wide. */
  function Flat(row: nat, col: nat, width: nat): nat
  {
    RowStart(row, width) + col
  }

  /** A grid with rows of width zero has no entries. */
  lemma {:induction false} RowStartZeroWidth(row: nat)
    ensures RowStart(row, 0) == 0
  {
    if row > 0 {
      RowStartZeroWidth(row - 1);
    }
  }

  /** The inverse of `Flat`: the row and the column of entry `k`. */
  function Unflat(k: nat, width: nat): (nat, nat)
    requires width > 0
  {
    if k < width then (0, k) else (Unflat(k - width, width).0 + 1, Unflat(k - width, width).1)
  }

  lemma {:induction false} RowStartIsProduct(row: nat, width: nat)
    ensures RowStart(row, width) == row * width
  {
    if row > 0 {
      RowStartIsProduct(row - 1, width);
      assert row * width == (row - 1) * width + width;
    }
  }

  /** Decoding an index of an in-range column gives back its coordinates. */
  lemma {:induction false} UnflatFlat(row: nat, col: nat, width: nat)
    requires col < width
    ensures Unflat(Flat(row, col, width), width) == (row, col)
  {
    if row > 0 {
      UnflatFlat(row - 1, col, width);
      assert Flat(row, col, width) - width == Flat(row - 1, col, width);
    }
  }

  /** Encoding a decoded index gives back the index, and the decoded column
      is in range. */
  lemma {:induction false} FlatUnflat(k: nat, width: nat)
    requires width > 0
    ensures Unflat(k, width).1 < width
    ensures Flat(Unflat(k, width).0, Unflat(k, width).1, width) == k
  {
    if k >= width {
      FlatUnflat(k - width, width);
    }
  }

  /** Distinct in-range cells have distinct flat indices. */
  lemma FlatInjective(row: nat, col: nat, row': nat, col': nat, width: nat)
    requires col < width && col' < width
    requires Flat(row, col, width) == Flat(row', col', width)
    ensures row == row' && col == col'
  {
    UnflatFlat(row, col, width);
    UnflatFlat(row', col', width);
  }

  /** `Unflat` is Euclidean division by the width. */
  lemma UnflatIsDivMod(k: nat, width: nat)
    requires width > 0
    ensures Unflat(k, width) == (k / width, k % width)
  {
    var (q, r) := Unflat(k, width);
    FlatUnflat(k, width);
    RowStartIsProduct(q, width);
    DivModUnique(k, width, q, r);
  }

  /** Euclidean division has exactly one quotient/remainder pair. */
  lemma DivModUnique(n: int, d: int, q: int, r: int)
    requires 0 < d && 0 <= r < d && n == q * d + r
    ensures n / d == q && n % d == r
  {
    var q', r' := n / d, n % d;
    assert n == q' * d + r';
    assert (q - q') * d == r' - r;
    if q' < q {
      MulAtLeast(q - q', d);
      assert false;
    } else if q < q' {
      MulAtLeast(q' - q, d);
      assert false;
    }
  }

  lemma MulAtLeast(a: int, d: int)
    requires a >= 1 && d > 0
    ensures a * d >= d
  {
    assert a * d == (a - 1) * d + d;
    assert (a - 1) * d >= 0;
  }

  /** Rows before `height` start before entry `RowStart(height, width)`. */
  lemma {:induction false} RowStartMonotonic(row: nat, height: nat, width: nat)
    requires row <= height
    ensures RowStart(row, width) <= RowStart(height, width)
  {
    if row < height {
      RowStartMonotonic(row, height - 1, width);
    }
  }

  /** A cell inside a `height` x `width` grid has an index inside the flat
      array of `RowStart(height, width)` entries. */
  lemma FlatInBounds(row: nat, col: nat, width: nat, height: nat)
    requires row < height && col < width
    ensures Flat(row, col, width) < RowStart(height, width)
  {
    RowStartMonotonic(row + 1, height, width);
  }

  /** Every index below `RowStart(height, width)` decodes to a row below
      `height`. */
  lemma UnflatInBounds(k: nat, width: nat, height: nat)
    requires width > 0 && k < RowStart(height, width)
    ensures Unflat(k, width).0 < height
  {
    FlatUnflat(k, width);
    var row := Unflat(k, width).0;
    if row >= height {
      RowStartMonotonic(height, row, width);
      assert false;
    }
  }
}

=== FILE: particles.dfy ===
/**
 The particle record shared with the compute shader, and the powers of the
 particle radius handed to it at initialisation.
 */
module Particles {
  import opened Vectors

  /** One fluid element. Field order is the order of the 44-byte record the
      shader reads. */
  datatype Particle = Particle(pressure: real, density: real, currentForce: Vec3, velocity: Vec3, position: Vec3)

  /** `new Particle { position = p }`: every field but the position keeps
      its zero default. */
  function AtPosition(position: Vec3): (p: Particle)
    ensures AtRest(p) && p.position == position
  {
    Particle(0.0, 0.0, Zero, Zero, position)
  }

  predicate AtRest(p: Particle)
  {
    p.pressure == 0.0 && p.density == 0.0 && p.currentForce == Zero && p.velocity == Zero
  }

  // ---------------------------------------------------------------------
  // Binary layout

  datatype Field = Pressure | Density | CurrentForce | Velocity | Position

  /** The record's fields in declaration order; must be kept in the same
      order as the fields of `Particle`. */
  const Fields: seq<Field> := [Pressure, Density, CurrentForce, Velocity, Position]

  /** Byte size of the record given to the particle buffer. */
  const ParticleStride: nat := 44

  /** Bytes per single-precision component. */
  const FloatSize: nat := 4

  function Components(f: Field): nat
  {
    match f
    case Pressure => 1
    case Density => 1
    case _ => 3
  }

  /** Bytes occupied by the first `n` fields of a sequentially laid-out
      record. */
  function PrefixSize(fields: seq<Field>, n: nat): nat
    requires n <= |fields|
  {
    if n == 0 then 0 else PrefixSize(fields, n - 1) + FloatSize * Components(fields[n - 1])
  }

  /** Sequential layout without padding puts the fields at byte offsets
      0, 4, 8, 20 and 32, and the record ends exactly at the 44 bytes
      declared for it and used as the buffer stride. */
  lemma {:induction false} LayoutMatchesStride()
    ensures [PrefixSize(Fields, 0), PrefixSize(Fields, 1), PrefixSize(Fields, 2),
             PrefixSize(Fields, 3), PrefixSize(Fields, 4)] == [0, 4, 8, 20, 32]
    ensures PrefixSize(Fields, |Fields|) == ParticleStride
  {
    assert PrefixSize(Fields, 1) == 4;
    assert PrefixSize(Fields, 2) == 8;
    assert PrefixSize(Fields, 3) == 20;
    assert PrefixSize(Fields, 4) == 32;
    assert PrefixSize(Fields, 5) == 44;
  }

  // ---------------------------------------------------------------------
  // Radius powers

  /** The values set as `radius`, `radius2` ... `radius5`. */
  datatype ShaderRadii = ShaderRadii(radius: real, radius2: real, radius3: real, radius4: real, radius5: real)

  function Pow(r: real, n: nat): real
  {
    if n == 0 then 1.0 else r * Pow(r, n - 1)
  }

  /** The radius powers as `InitializeComputeBuffers` multiplies them out. */
  function RadiiFor(particleRadius: real): (radii: ShaderRadii)
    ensures radii.radius == Pow(particleRadius, 1)
    ensures radii.radius2 == Pow(particleRadius, 2)
    ensures radii.radius3 == Pow(particleRadius, 3)
    ensures radii.radius4 == Pow(particleRadius, 4)
    ensures radii.radius5 == Pow(particleRadius, 5)
  {
    var r := particleRadius;
    ShaderRadii(r, r * r, r * r * r, r * r * r * r, r * r * r * r * r)
  }

  /** For a positive radius below one, higher powers are positive and
      strictly smaller. */
  lemma {:induction false} PowDecreasing(r: real, n: nat)
    requires 0.0 < r < 1.0
    ensures 0.0 < Pow(r, n + 1) < Pow(r, n)
  {
    if n > 0 {
      PowDecreasing(r, n - 1);
    }
  }

  /** The radii sent to the shader are positive and, for a particle radius
      below one (the default is 0.1), strictly decreasing. */
  lemma RadiiDecrease(particleRadius: real)
    requires 0.0 < particleRadius < 1.0
    ensures var radii := RadiiFor(particleRadius);
      0.0 < radii.radius5 < radii.radius4 < radii.radius3 < radii.radius2 < radii.radius
  {
    PowDecreasing(particleRadius, 1);
    PowDecreasing(particleRadius, 2);
    PowDecreasing(particleRadius, 3);
    PowDecreasing(particleRadius, 4);
  }
}

=== FILE: spawn.dfy ===
/**
 Initial placement of the fluid particles (`SPH_Compute.SpawnParticlesInBox`).

 The spawner walks the grid of cells `(x, y, z)` with `x` outermost and `z`
 innermost and appends one particle per cell, at rest, placed on a lattice of
 spacing `2 * particleRadius` that starts at the lower corner of the spawn box,
 nudged by a small random offset.

 The random source is an input: `draws(k)` is the `k`-th value of
 `Random.onUnitSphere`, drawn for the `k`-th particle appended.
 */
module Spawn {
  import opened Grid
  import opened Vectors
  import opened Particles

  /** The inspector-set fields the spawner reads. */
  datatype SpawnConfig = SpawnConfig(numToSpawn: Int3, spawnBoxCenter: Vec3, spawnBox: Vec3, particleRadius: real)

  /** Corner of the spawn box with the smallest coordinates, where cell
      (0, 0, 0) is placed. */
  function SpawnTopLeft(cfg: SpawnConfig): Vec3
  {
    Sub(cfg.spawnBoxCenter, Div(cfg.spawnBox, 2.0))
  }

  /** Offset of cell (`x`, `y`, `z`) from the corner: one particle diameter
      per cell along each axis. */
  function LatticeOffset(cfg: SpawnConfig, x: nat, y: nat, z: nat): Vec3
  {
    var r := cfg.particleRadius;
    Vec3(x as real * r * 2.0, y as real * r * 2.0, z as real * r * 2.0)
  }

  /** The random nudge: the unit-sphere draw scaled to a tenth of the
      particle radius. */
  function Jitter(cfg: SpawnConfig, draw: Vec3): Vec3
  {
    Scale(Scale(draw, cfg.particleRadius), 0.1)
  }

  function SpawnPosition(cfg: SpawnConfig, x: nat, y: nat, z: nat, draw: Vec3): Vec3
  {
    Add(Add(SpawnTopLeft(cfg), LatticeOffset(cfg, x, y, z)), Jitter(cfg, draw))
  }

  /** The particle spawned for cell (`x`, `y`, `z`). */
  function CellParticle(cfg: SpawnConfig, x: nat, y: nat, z: nat, draw: Vec3): Particle
  {
    AtPosition(SpawnPosition(cfg, x, y, z, draw))
  }

  /** Position of cell (`x`, `y`, `z`) in x-major order. */
  function CellIndex(n: Int3, x: nat, y: nat, z: nat): nat
  {
    Flat(Flat(x, y, Iterations(n.y)), z, Iterations(n.z))
  }

  /** Number of particles the loops append. */
  function SpawnCount(n: Int3): nat
  {
    CellIndex(n, Iterations(n.x), 0, 0)
  }

  /** The cell whose particle sits at index `k`. */
  function CellOf(n: Int3, k: nat): (nat, nat, nat)
    requires n.y > 0 && n.z > 0
  {
    var (xy, z) := Unflat(k, n.z);
    var (x, y) := Unflat(xy, n.y);
    (x, y, z)
  }

  /** The particle for the cell that index `k` encodes, with the `k`-th
      draw. */
  function ParticleAt(cfg: SpawnConfig, draws: nat -> Vec3, k: nat): Particle
    requires cfg.numToSpawn.y > 0 && cfg.numToSpawn.z > 0
  {
    var (x, y, z) := CellOf(cfg.numToSpawn, k);
    CellParticle(cfg, x, y, z, draws(k))
  }

  /** Reference result of the spawner. */
  function Spawned(cfg: SpawnConfig, draws: nat -> Vec3): seq<Particle>
  {
    var n := cfg.numToSpawn;
    if n.x > 0 && n.y > 0 && n.z > 0 then
      seq(SpawnCount(n), k requires 0 <= k < SpawnCount(n) => ParticleAt(cfg, draws, k))
    else
      []
  }

  /** `SpawnParticlesInBox`: a particle per cell, x-major, appended to a list
      whose length becomes `num`. */
  method SpawnParticlesInBox(cfg: SpawnConfig, draws: nat -> Vec3) returns (num: int, particles: seq<Particle>)
    ensures num == |particles| == SpawnCount(cfg.numToSpawn)
    ensures particles == Spawned(cfg, draws)
    ensures forall k :: 0 <= k < |particles| ==> AtRest(particles[k])
  {
    var n := cfg.numToSpawn;
    var spawnTopLeft := Sub(cfg.spawnBoxCenter, Div(cfg.spawnBox, 2.0));
    var list: seq<Particle> := [];
    var x := 0;
    while x < n.x
      invariant 0 <= x <= Iterations(n.x)
      invariant |list| == CellIndex(n, x, 0, 0)
      invariant |list| > 0 ==> n.y > 0 && n.z > 0
      invariant forall k :: 0 <= k < |list| ==> list[k] == ParticleAt(cfg, draws, k)
    {
      var y := 0;
      while y < n.y
        invariant 0 <= y <= Iterations(n.y)
        invariant |list| == CellIndex(n, x, y, 0)
        invariant |list| > 0 ==> n.y > 0 && n.z > 0
        invariant forall k :: 0 <= k < |list| ==> list[k] == ParticleAt(cfg, draws, k)
      {
        list := SpawnColumn(cfg, draws, spawnTopLeft, x, y, list);
        y := y + 1;
      }
      x := x + 1;
    }
    num := |list|;
    particles := list;
    if n.x > 0 && n.y > 0 && n.z > 0 {
      assert particles == Spawned(cfg, draws);
    } else {
      RowStartZeroWidth(Flat(Iterations(n.x), 0, Iterations(n.y)));
      RowStartZeroWidth(Iterations(n.x));
    }
  }

  /** The innermost loop of `SpawnParticlesInBox`: the particles of cells
      (`x`, `y`, 0) .. (`x`, `y`, `nz - 1`), appended in order. */
  method SpawnColumn(cfg: SpawnConfig, draws: nat -> Vec3, spawnTopLeft: Vec3, x: nat, y: nat,
                     list0: seq<Particle>) returns (list: seq<Particle>)
    requires spawnTopLeft == SpawnTopLeft(cfg)
    requires y < cfg.numToSpawn.y
    requires |list0| == CellIndex(cfg.numToSpawn, x, y, 0)
    requires |list0| > 0 ==> cfg.numToSpawn.z > 0
    requires forall k :: 0 <= k < |list0| ==> list0[k] == ParticleAt(cfg, draws, k)
    ensures |list| == CellIndex(cfg.numToSpawn, x, y + 1, 0)
    ensures |list| > 0 ==> cfg.numToSpawn.z > 0
    ensures forall k :: 0 <= k < |list| ==> list[k] == ParticleAt(cfg, draws, k)
  {
    var n := cfg.numToSpawn;
    list := list0;
    var z := 0;
    while z < n.z
      invariant 0 <= z <= Iterations(n.z)
      invariant |list| == CellIndex(n, x, y, z)
      invariant |list| > 0 ==> n.z > 0
      invariant forall k :: 0 <= k < |list| ==> list[k] == ParticleAt(cfg, draws, k)
    {
      var r := cfg.particleRadius;
      var spawnPosition := Add(Add(spawnTopLeft, Vec3(x as real * r * 2.0, y as real * r * 2.0, z as real * r * 2.0)),
                               Scale(Scale(draws(|list|), r), 0.1));
      var p := AtPosition(spawnPosition);
      CellOfIndex(n, x, y, z);
      list := list + [p];
      z := z + 1;
    }
  }

  /** Decoding the index of an in-range cell gives back the cell. */
  lemma CellOfIndex(n: Int3, x: nat, y: nat, z: nat)
    requires y < n.y && z < n.z
    ensures CellOf(n, CellIndex(n, x, y, z)) == (x, y, z)
  {
    UnflatFlat(Flat(x, y, n.y), z, n.z);
    UnflatFlat(x, y, n.y);
  }

  /** The particle count is the product of the three per-axis counts, and
      zero as soon as one of them is not positive. */
  lemma SpawnCountIsProduct(n: Int3)
    ensures SpawnCount(n) == Iterations(n.x) * Iterations(n.y) * Iterations(n.z)
    ensures n.x >= 0 && n.y >= 0 && n.z >= 0 ==> SpawnCount(n) == n.x * n.y * n.z
    ensures n.x <= 0 || n.y <= 0 || n.z <= 0 ==> SpawnCount(n) == 0
  {
    var (px, py, pz) := (Iterations(n.x), Iterations(n.y), Iterations(n.z));
    RowStartIsProduct(px, py);
    RowStartIsProduct(RowStart(px, py), pz);
  }

  /** x-major order: the particle of cell (`x`, `y`, `z`) sits at index
      `(x * ny + y) * nz + z` and was placed with the draw of that index. */
  lemma SpawnOrder(cfg: SpawnConfig, draws: nat -> Vec3, x: nat, y: nat, z: nat)
    requires x < cfg.numToSpawn.x && y < cfg.numToSpawn.y && z < cfg.numToSpawn.z
    ensures var n := cfg.numToSpawn;
      CellIndex(n, x, y, z) == (x * n.y + y) * n.z + z
    ensures CellIndex(cfg.numToSpawn, x, y, z) < |Spawned(cfg, draws)|
    ensures Spawned(cfg, draws)[CellIndex(cfg.numToSpawn, x, y, z)]
            == CellParticle(cfg, x, y, z, draws(CellIndex(cfg.numToSpawn, x, y, z)))
  {
    var n := cfg.numToSpawn;
    RowStartIsProduct(x, n.y);
    RowStartIsProduct(Flat(x, y, n.y), n.z);
    FlatInBounds(x, y, n.y, n.x);
    FlatInBounds(Flat(x, y, n.y), z, n.z, RowStart(n.x, n.y));
    CellOfIndex(n, x, y, z);
  }

  /** Every spawned particle is the particle of an in-range cell: the cells
      cover the whole list. */
  lemma SpawnedCell(cfg: SpawnConfig, draws: nat -> Vec3, k: nat) returns (x: nat, y: nat, z: nat)
    requires k < |Spawned(cfg, draws)|
    ensures x < cfg.numToSpawn.x && y < cfg.numToSpawn.y && z < cfg.numToSpawn.z
    ensures k == CellIndex(cfg.numToSpawn, x, y, z)
    ensures Spawned(cfg, draws)[k] == CellParticle(cfg, x, y, z, draws(k))
  {
    var n := cfg.numToSpawn;
    var cell := CellOf(n, k);
    x, y, z := cell.0, cell.1, cell.2;
    var xy := Unflat(k, n.z).0;
    FlatUnflat(k, n.z);
    FlatUnflat(xy, n.y);
    UnflatInBounds(k, n.z, RowStart(n.x, n.y));
    UnflatInBounds(xy, n.y, n.x);
  }

  /** The same configuration and the same first `SpawnCount` draws give the
      same particles: the spawner is deterministic apart from its draws. */
  lemma SpawnDeterministic(cfg: SpawnConfig, draws: nat -> Vec3, draws': nat -> Vec3)
    requires forall k :: 0 <= k < SpawnCount(cfg.numToSpawn) ==> draws(k) == draws'(k)
    ensures Spawned(cfg, draws) == Spawned(cfg, draws')
  {
  }

  /** A unit-sphere draw scaled by `0.1 * particleRadius` has length
      `0.1 * particleRadius`. */
  lemma JitterLength(cfg: SpawnConfig, draw: Vec3)
    requires NormSquared(draw) == 1.0
    ensures NormSquared(Jitter(cfg, draw)) == (0.1 * cfg.particleRadius) * (0.1 * cfg.particleRadius)
  {
  }

  /** A component of a unit vector lies in [-1, 1]. */
  lemma UnitComponent(a: real, b: real, c: real)
    requires a * a + b * b + c * c == 1.0
    ensures -1.0 <= a <= 1.0
  {
    assert a * a <= 1.0;
  }

  /** `v` lies between `corner - r/10` and `corner + 2r(count - 1) + r/10`. */
  predicate InLatticeRange(corner: real, r: real, count: int, v: real)
  {
    corner - 0.1 * r <= v <= corner + (count - 1) as real * r * 2.0 + 0.1 * r
  }

  /** Along one axis, a cell index below `count` with a draw component in
      [-1, 1] lands in the lattice range. */
  lemma AxisBounds(corner: real, r: real, i: nat, count: nat, d: real, e: real, f: real)
    requires r >= 0.0 && i < count && d * d + e * e + f * f == 1.0
    ensures InLatticeRange(corner, r, count, corner + i as real * r * 2.0 + d * r * 0.1)
  {
    UnitComponent(d, e, f);
    var a, m := i as real, (count - 1) as real;
    MulNonnegative(a, r);
    MulNonnegative(1.0 + d, r);
    MulNonnegative(1.0 - d, r);
    MulNonnegative(m - a, r);
    assert d * r == (1.0 + d) * r - r == r - (1.0 - d) * r;
    assert m * r == (m - a) * r + a * r;
  }

  lemma MulNonnegative(a: real, b: real)
    requires a >= 0.0 && b >= 0.0
    ensures a * b >= 0.0
  {
  }

  /** Where a spawned particle can be: along each axis, between the box's
      lower corner less the jitter and the corner plus the lattice extent
      `2 * particleRadius * (count - 1)` plus the jitter. The spawn box's
      extent only fixes the corner; the lattice is not clipped to it. */
  lemma SpawnPositionBounds(cfg: SpawnConfig, x: nat, y: nat, z: nat, draw: Vec3)
    requires cfg.particleRadius >= 0.0 && NormSquared(draw) == 1.0
    requires x < cfg.numToSpawn.x && y < cfg.numToSpawn.y && z < cfg.numToSpawn.z
    ensures var p, c, r, n := SpawnPosition(cfg, x, y, z, draw), SpawnTopLeft(cfg), cfg.particleRadius, cfg.numToSpawn;
      && InLatticeRange(c.x, r, n.x, p.x)
      && InLatticeRange(c.y, r, n.y, p.y)
      && InLatticeRange(c.z, r, n.z, p.z)
  {
    var p, c, r, n := SpawnPosition(cfg, x, y, z, draw), SpawnTopLeft(cfg), cfg.particleRadius, cfg.numToSpawn;
    var (dx, dy, dz) := (draw.x, draw.y, draw.z);
    assert p.x == c.x + x as real * r * 2.0 + dx * r * 0.1;
    assert p.y == c.y + y as real * r * 2.0 + dy * r * 0.1;
    assert p.z == c.z + z as real * r * 2.0 + dz * r * 0.1;
    AxisBounds(c.x, r, x, n.x, dx, dy, dz);
    AxisBounds(c.y, r, y, n.y, dy, dx, dz);
    AxisBounds(c.z, r, z, n.z, dz, dx, dy);
  }

  /** The inspector defaults: 10 x 10 x 10 particles of radius 0.1 in a
      4 x 2 x 1.5 box centred at (0, 3, 0). */
  const DefaultConfig: SpawnConfig :=
    SpawnConfig(Int3(10, 10, 10), Vec3(0.0, 3.0, 0.0), Vec3(4.0, 2.0, 1.5), 0.1)

  /** With the defaults, 1000 particles are spawned. */
  lemma DefaultSpawnCount(draws: nat -> Vec3)
    ensures |Spawned(DefaultConfig, draws)| == 1000
  {
    SpawnCountIsProduct(DefaultConfig.numToSpawn);
  }

  /** With the defaults, the tenth particle (cell (0, 0, 9), the last of the
      first column) lies beyond the far face of the spawn box along z
      whatever its draw: ten particles 0.2 apart span 1.8 along an axis where
      the box is 1.5 deep. */
  lemma DefaultSpawnOverrunsBoxDepth(draws: nat -> Vec3)
    requires forall k :: 0 <= k < 1000 ==> NormSquared(draws(k)) == 1.0
    ensures |Spawned(DefaultConfig, draws)| == 1000
    ensures Spawned(DefaultConfig, draws)[9].position.z
            > DefaultConfig.spawnBoxCenter.z + DefaultConfig.spawnBox.z / 2.0
  {
    var cfg := DefaultConfig;
    var d := draws(9);
    assert NormSquared(d) == 1.0;
    UnitComponent(d.z, d.x, d.y);
    var z := SpawnPosition(cfg, 0, 0, 9, d).z;
    assert z == -0.75 + 1.8 + d.z * 0.1 * 0.1;
    assert z > 0.75;
    DefaultSpawnCount(draws);
    SpawnOrder(cfg, draws, 0, 0, 9);
  }
}

=== FILE: tube_mesh.dfy ===
/**
 Topology of the parametric tube (the trachea wall) built by
 `TubeGenerator.CreateTube`.

 The tube is a grid of `heightSegments + 1` rings, each of
 `radialSegments + 1` vertices; the last vertex of a ring (angle 2 pi)
 repeats the position of the first (angle 0) so that the texture seam has
 its own column. Every grid cell
 below the top ring and left of the seam column becomes a quad of two
 triangles, six entries of a flat index buffer.

 A vertex is abstracted to the grid coordinates that determine its position
 (ring and segment) together with the parts of its data computed without
 trigonometry: its height and its texture coordinates.
 */
module TubeMesh {
  import opened Grid

  /** Vertex of ring `ring` and segment `segment`. Its x/z coordinates are
      `radius * cos(segment * angleStep)` and `radius * sin(...)`; they are
      represented by `segment` alone. */
  datatype TubeVertex = TubeVertex(ring: nat, segment: nat, y: real, u: real, v: real)

  datatype Mesh = Mesh(vertices: seq<TubeVertex>, triangles: seq<int>)

  /** Segment counts for which `CreateTube` builds a proper tube: the angle
      step, the height step and the texture coordinates divide by them. */
  predicate ValidSegments(radialSegments: int, heightSegments: int)
  {
    radialSegments > 0 && heightSegments > 0
  }

  /** Size of the vertex array: `heightSegments + 1` rings of
      `radialSegments + 1` vertices. */
  function VertexCount(radialSegments: nat, heightSegments: nat): nat
  {
    RowStart(heightSegments + 1, radialSegments + 1)
  }

  /** Size of the index buffer: six slots for each of the
      `heightSegments` x `radialSegments` cells. */
  function TriangleCount(radialSegments: nat, heightSegments: nat): nat
  {
    6 * RowStart(heightSegments, radialSegments)
  }

  /** Id of the vertex of ring `i`, segment `j`. */
  function VertexId(radialSegments: nat, i: nat, j: nat): nat
  {
    Flat(i, j, radialSegments + 1)
  }

  /** Number of cell (`i`, `j`) in the row-major order of cells. */
  function CellId(radialSegments: nat, i: nat, j: nat): nat
  {
    Flat(i, j, radialSegments)
  }

  /** First of the six index-buffer slots of cell (`i`, `j`). */
  function CellBase(radialSegments: nat, i: nat, j: nat): nat
  {
    6 * CellId(radialSegments, i, j)
  }

  /** Corner `t` (0..5) of the two triangles of the cell whose lower-left
      vertex is (`i`, `j`): `(start, next, start + 1)` then
      `(start + 1, next, next + 1)`, where `next` is `start` one ring up. */
  function CellCorner(radialSegments: nat, i: nat, j: nat, t: int): nat
    requires 0 <= t < 6
  {
    var start := VertexId(radialSegments, i, j);
    var next := start + radialSegments + 1;
    [start, next, start + 1, start + 1, next, next + 1][t]
  }

  /** The vertex the loop writes for ring `i`, segment `j`. */
  function GridVertex(height: real, radialSegments: int, heightSegments: int, i: nat, j: nat): TubeVertex
    requires ValidSegments(radialSegments, heightSegments)
  {
    TubeVertex(i, j, i as real * (height / heightSegments as real),
               j as real / radialSegments as real, i as real / heightSegments as real)
  }

  /** Reference contents of the vertex array: slot `k` holds the vertex of
      the ring and segment that `k` encodes row-major. */
  function ExpectedVertex(height: real, radialSegments: int, heightSegments: int, k: nat): TubeVertex
    requires ValidSegments(radialSegments, heightSegments)
  {
    var (i, j) := Unflat(k, radialSegments + 1);
    GridVertex(height, radialSegments, heightSegments, i, j)
  }

  function ExpectedVertices(height: real, radialSegments: int, heightSegments: int): seq<TubeVertex>
    requires ValidSegments(radialSegments, heightSegments)
  {
    seq(VertexCount(radialSegments, heightSegments),
        k requires 0 <= k => ExpectedVertex(height, radialSegments, heightSegments, k))
  }

  /** Reference contents of slot `s` of the index buffer: corner `s % 6` of
      cell number `s / 6`. */
  function ExpectedSlot(radialSegments: int, s: nat): nat
    requires radialSegments > 0
  {
    var (i, j) := Unflat(s / 6, radialSegments);
    CellCorner(radialSegments, i, j, s % 6)
  }

  function ExpectedTriangles(radialSegments: int, heightSegments: int): seq<int>
    requires ValidSegments(radialSegments, heightSegments)
  {
    seq(TriangleCount(radialSegments, heightSegments),
        s requires 0 <= s => ExpectedSlot(radialSegments, s))
  }

  /** Slot `s` holds corner `s % 6` of the cell whose number `s / 6` splits
      into ring `(s / 6) / radialSegments` and segment
      `(s / 6) % radialSegments`. */
  lemma ExpectedSlotByDivision(radialSegments: int, s: nat)
    requires radialSegments > 0
    ensures ExpectedSlot(radialSegments, s)
         == CellCorner(radialSegments, (s / 6) / radialSegments, (s / 6) % radialSegments, s % 6)
  {
    UnflatIsDivMod(s / 6, radialSegments);
  }

  /** The array sizes are the products `CreateTube` allocates. */
  lemma CountsAreProducts(radialSegments: nat, heightSegments: nat)
    ensures VertexCount(radialSegments, heightSegments) == (radialSegments + 1) * (heightSegments + 1)
    ensures TriangleCount(radialSegments, heightSegments) == radialSegments * heightSegments * 6
  {
    RowStartIsProduct(heightSegments + 1, radialSegments + 1);
    RowStartIsProduct(heightSegments, radialSegments);
  }

  /** The slot expression `6 * (i * radialSegments + j)` of `CreateTube`. */
  lemma CellBaseIsProduct(radialSegments: nat, i: nat, j: nat)
    ensures CellBase(radialSegments, i, j) == 6 * (i * radialSegments + j)
  {
    RowStartIsProduct(i, radialSegments);
  }

  /** The running `vertexIndex` at ring `i`, segment `j` is
      `i * (radialSegments + 1) + j`, a slot of the vertex array; once every
      ring is done it has reached the array size. */
  lemma VertexIndexIsProduct(radialSegments: nat, heightSegments: nat, i: nat, j: nat)
    requires i <= heightSegments && j <= radialSegments
    ensures VertexId(radialSegments, i, j) == i * (radialSegments + 1) + j
    ensures VertexId(radialSegments, i, j) < VertexCount(radialSegments, heightSegments)
    ensures VertexId(radialSegments, heightSegments + 1, 0) == VertexCount(radialSegments, heightSegments)
  {
    RowStartIsProduct(i, radialSegments + 1);
    FlatInBounds(i, j, radialSegments + 1, heightSegments + 1);
  }

  /** Cell (`i`, `j`) owns slots `CellBase` .. `CellBase + 5`; they lie in
      the index buffer and the reference puts the cell's corners there. */
  lemma CellSlots(radialSegments: int, heightSegments: int, i: nat, j: nat)
    requires ValidSegments(radialSegments, heightSegments)
    requires i < heightSegments && j < radialSegments
    ensures CellBase(radialSegments, i, j) + 5 < TriangleCount(radialSegments, heightSegments)
    ensures forall s :: CellBase(radialSegments, i, j) <= s < CellBase(radialSegments, i, j) + 6 ==>
      ExpectedSlot(radialSegments, s) == CellCorner(radialSegments, i, j, s - CellBase(radialSegments, i, j))
  {
    FlatInBounds(i, j, radialSegments, heightSegments);
    UnflatFlat(i, j, radialSegments);
  }

  /** Distinct cells own disjoint runs of six slots. */
  lemma CellSlotsDisjoint(radialSegments: int, heightSegments: int, i: nat, j: nat, i': nat, j': nat)
    requires ValidSegments(radialSegments, heightSegments)
    requires i < heightSegments && j < radialSegments && i' < heightSegments && j' < radialSegments
    requires (i, j) != (i', j')
    ensures CellBase(radialSegments, i, j) + 6 <= CellBase(radialSegments, i', j')
         || CellBase(radialSegments, i', j') + 6 <= CellBase(radialSegments, i, j)
  {
    if CellId(radialSegments, i, j) == CellId(radialSegments, i', j') {
      FlatInjective(i, j, i', j', radialSegments);
    }
  }

  /** Every slot of the index buffer belongs to a cell below the top ring and
      left of the seam: together the cells cover the whole buffer. */
  lemma SlotOwner(radialSegments: int, heightSegments: int, s: nat) returns (i: nat, j: nat)
    requires ValidSegments(radialSegments, heightSegments)
    requires s < TriangleCount(radialSegments, heightSegments)
    ensures i < heightSegments && j < radialSegments
    ensures CellBase(radialSegments, i, j) <= s < CellBase(radialSegments, i, j) + 6
    ensures (i, j) == Unflat(s / 6, radialSegments)
  {
    i, j := Unflat(s / 6, radialSegments).0, Unflat(s / 6, radialSegments).1;
    FlatUnflat(s / 6, radialSegments);
    UnflatInBounds(s / 6, radialSegments, heightSegments);
  }

  /** The top ring and the seam column get vertices, but no slot of the
      index buffer belongs to a cell there. */
  lemma TopRingAndSeamWriteNoSlots(height: real, radialSegments: int, heightSegments: int, i: nat, j: nat)
    requires ValidSegments(radialSegments, heightSegments)
    requires i <= heightSegments && j <= radialSegments
    requires i == heightSegments || j == radialSegments
    ensures VertexId(radialSegments, i, j) < VertexCount(radialSegments, heightSegments)
    ensures ExpectedVertex(height, radialSegments, heightSegments, VertexId(radialSegments, i, j))
            == GridVertex(height, radialSegments, heightSegments, i, j)
    ensures forall s :: 0 <= s < TriangleCount(radialSegments, heightSegments) ==>
              Unflat(s / 6, radialSegments) != (i, j)
  {
    FlatInBounds(i, j, radialSegments + 1, heightSegments + 1);
    UnflatFlat(i, j, radialSegments + 1);
    forall s | 0 <= s < TriangleCount(radialSegments, heightSegments)
      ensures Unflat(s / 6, radialSegments) != (i, j)
    {
      var i', j' := SlotOwner(radialSegments, heightSegments, s);
    }
  }

  /** `next`, one ring above `start`, is the vertex of the same segment in
      the following ring. */
  lemma NextIsSameSegmentNextRing(height: real, radialSegments: int, heightSegments: int, i: nat, j: nat)
    requires ValidSegments(radialSegments, heightSegments)
    requires i < heightSegments && j <= radialSegments
    ensures VertexId(radialSegments, i, j) + radialSegments + 1 == VertexId(radialSegments, i + 1, j)
    ensures VertexId(radialSegments, i + 1, j) < VertexCount(radialSegments, heightSegments)
    ensures ExpectedVertex(height, radialSegments, heightSegments, VertexId(radialSegments, i + 1, j)).ring == i + 1
    ensures ExpectedVertex(height, radialSegments, heightSegments, VertexId(radialSegments, i + 1, j)).segment == j
  {
    UnflatFlat(i + 1, j, radialSegments + 1);
    FlatInBounds(i + 1, j, radialSegments + 1, heightSegments + 1);
  }

  /** The six corners of cell (`i`, `j`) are the four grid vertices
      (`i`, `j`), (`i`, `j + 1`), (`i + 1`, `j`), (`i + 1`, `j + 1`) of its
      quad: the first triangle is (i, j) - (i + 1, j) - (i, j + 1), the
      second (i, j + 1) - (i + 1, j) - (i + 1, j + 1). The two share the
      diagonal {(i, j + 1), (i + 1, j)} and each has three distinct
      vertices. */
  lemma CellIsQuad(height: real, radialSegments: int, heightSegments: int, i: nat, j: nat)
    requires ValidSegments(radialSegments, heightSegments)
    requires i < heightSegments && j < radialSegments
    ensures forall t :: 0 <= t < 6 ==> CellCorner(radialSegments, i, j, t) < VertexCount(radialSegments, heightSegments)
    ensures CellCorner(radialSegments, i, j, 0) == VertexId(radialSegments, i, j)
    ensures CellCorner(radialSegments, i, j, 1) == VertexId(radialSegments, i + 1, j)
    ensures CellCorner(radialSegments, i, j, 2) == VertexId(radialSegments, i, j + 1)
    ensures CellCorner(radialSegments, i, j, 3) == VertexId(radialSegments, i, j + 1)
    ensures CellCorner(radialSegments, i, j, 4) == VertexId(radialSegments, i + 1, j)
    ensures CellCorner(radialSegments, i, j, 5) == VertexId(radialSegments, i + 1, j + 1)
    ensures VertexId(radialSegments, i, j) != VertexId(radialSegments, i + 1, j)
    ensures VertexId(radialSegments, i, j) != VertexId(radialSegments, i, j + 1)
    ensures VertexId(radialSegments, i + 1, j) != VertexId(radialSegments, i, j + 1)
    ensures VertexId(radialSegments, i + 1, j) != VertexId(radialSegments, i + 1, j + 1)
    ensures VertexId(radialSegments, i, j + 1) != VertexId(radialSegments, i + 1, j + 1)
  {
    FlatInBounds(i + 1, j + 1, radialSegments + 1, heightSegments + 1);
  }

  /** Every entry of the index buffer is a vertex id, and the last entry
      (corner `next + 1` of the last cell) is the last vertex. */
  lemma TriangleIndicesInRange(radialSegments: int, heightSegments: int)
    requires ValidSegments(radialSegments, heightSegments)
    ensures forall s :: 0 <= s < TriangleCount(radialSegments, heightSegments) ==>
      0 <= ExpectedSlot(radialSegments, s) < VertexCount(radialSegments, heightSegments)
    ensures ExpectedSlot(radialSegments, TriangleCount(radialSegments, heightSegments) - 1)
            == VertexCount(radialSegments, heightSegments) - 1
  {
    forall s | 0 <= s < TriangleCount(radialSegments, heightSegments)
      ensures ExpectedSlot(radialSegments, s) < VertexCount(radialSegments, heightSegments)
    {
      var i, j := SlotOwner(radialSegments, heightSegments, s);
      CellIsQuad(0.0, radialSegments, heightSegments, i, j);
    }
    var last := TriangleCount(radialSegments, heightSegments) - 1;
    var i, j := SlotOwner(radialSegments, heightSegments, last);
    LastCellIsTopRight(radialSegments, heightSegments, i, j);
    assert last % 6 == 5;
    assert RowStart(heightSegments + 1, radialSegments + 1)
        == RowStart(heightSegments - 1, radialSegments + 1) + 2 * (radialSegments + 1);
  }

  /** The cell owning the last slot is the one below the top ring, left of
      the seam. */
  lemma LastCellIsTopRight(radialSegments: int, heightSegments: int, i: nat, j: nat)
    requires ValidSegments(radialSegments, heightSegments)
    requires i < heightSegments && j < radialSegments
    requires CellBase(radialSegments, i, j) + 6 == TriangleCount(radialSegments, heightSegments)
    ensures i == heightSegments - 1 && j == radialSegments - 1
  {
    assert CellId(radialSegments, i, j) == CellId(radialSegments, heightSegments - 1, radialSegments - 1);
    FlatInjective(i, j, heightSegments - 1, radialSegments - 1, radialSegments);
  }

  /** Vertex attributes computed without trigonometry: every vertex lies in
      the grid, its texture coordinates lie in the unit square with the seam
      column at `u == 1` and the first column at `u == 0`, and its height is
      `v * height`, from 0 at the bottom ring to `height` at the top ring. */
  lemma VertexAttributes(height: real, radialSegments: int, heightSegments: int, k: nat)
    requires ValidSegments(radialSegments, heightSegments)
    requires k < VertexCount(radialSegments, heightSegments)
    ensures var vtx := ExpectedVertex(height, radialSegments, heightSegments, k);
      && vtx.ring <= heightSegments && vtx.segment <= radialSegments
      && k == VertexId(radialSegments, vtx.ring, vtx.segment)
      && 0.0 <= vtx.u <= 1.0 && 0.0 <= vtx.v <= 1.0
      && (vtx.segment == 0 ==> vtx.u == 0.0) && (vtx.segment == radialSegments ==> vtx.u == 1.0)
      && vtx.y == vtx.v * height
      && (vtx.ring == 0 ==> vtx.y == 0.0) && (vtx.ring == heightSegments ==> vtx.y == height)
  {
    FlatUnflat(k, radialSegments + 1);
    UnflatInBounds(k, radialSegments + 1, heightSegments + 1);
    var (i, j) := Unflat(k, radialSegments + 1);
    Ratio(j, radialSegments);
    Ratio(i, heightSegments);
    assert i as real * (height / heightSegments as real) == (i as real / heightSegments as real) * height;
  }

  /** `a / b` for `0 <= a <= b` lies in the unit interval, with the ends
      reached exactly at `a == 0` and `a == b`. */
  lemma Ratio(a: nat, b: nat)
    requires 0 < b && a <= b
    ensures 0.0 <= a as real / b as real <= 1.0
    ensures a == 0 ==> a as real / b as real == 0.0
    ensures a == b ==> a as real / b as real == 1.0
  {
  }

  /** The first `vertexCount` vertex slots and the slots of the first `cells`
      cells hold their reference contents. */
  ghost predicate Built(vertices: array<TubeVertex>, triangles: array<int>, height: real,
                        radialSegments: int, heightSegments: int, vertexCount: nat, cells: nat)
    requires ValidSegments(radialSegments, heightSegments)
    reads vertices, triangles
  {
    && vertexCount <= vertices.Length
    && 6 * cells <= triangles.Length
    && (forall k :: 0 <= k < vertexCount ==>
          vertices[k] == ExpectedVertex(height, radialSegments, heightSegments, k))
    && (forall s :: 0 <= s < 6 * cells ==> triangles[s] == ExpectedSlot(radialSegments, s))
  }

  /** `CreateTube`: fills the vertex array ring by ring and, for every cell
      below the top ring and left of the seam, the six slots of its two
      triangles. The result is exactly the reference mesh. */
  method CreateTube(height: real, radialSegments: int, heightSegments: int) returns (mesh: Mesh)
    requires ValidSegments(radialSegments, heightSegments)
    ensures |mesh.vertices| == VertexCount(radialSegments, heightSegments)
    ensures |mesh.triangles| == TriangleCount(radialSegments, heightSegments)
    ensures forall k :: 0 <= k < |mesh.vertices| ==>
      mesh.vertices[k] == ExpectedVertex(height, radialSegments, heightSegments, k)
    ensures forall s :: 0 <= s < |mesh.triangles| ==> mesh.triangles[s] == ExpectedSlot(radialSegments, s)
    ensures mesh.vertices == ExpectedVertices(height, radialSegments, heightSegments)
    ensures mesh.triangles == ExpectedTriangles(radialSegments, heightSegments)
  {
    CountsAreProducts(radialSegments, heightSegments);
    var vertexCount := (radialSegments + 1) * (heightSegments + 1);
    var triangleCount := radialSegments * heightSegments * 6;
    var vertices := new TubeVertex[vertexCount];
    var triangles := new int[triangleCount];
    var heightStep := height / heightSegments as real;

    var vertexIndex := 0;
    ghost var cells := 0;
    var i := 0;
    while i <= heightSegments
      invariant 0 <= i <= heightSegments + 1
      invariant vertexIndex == VertexId(radialSegments, i, 0)
      invariant cells == CellId(radialSegments, Min(i, heightSegments), 0)
      invariant Built(vertices, triangles, height, radialSegments, heightSegments, vertexIndex, cells)
    {
      var y := i as real * heightStep;
      vertexIndex, cells := BuildRing(vertices, triangles, height, radialSegments, heightSegments,
                                      i, y, vertexIndex, cells);
      i := i + 1;
    }
    // The running counter has visited every vertex slot exactly once.
    assert vertexIndex == VertexCount(radialSegments, heightSegments);
    mesh := Mesh(vertices[..], triangles[..]);
  }

  /** One pass of the inner loop of `CreateTube`: the `radialSegments + 1`
      vertices of ring `i` and, below the top ring, the quads of its
      `radialSegments` cells. */
  method BuildRing(vertices: array<TubeVertex>, triangles: array<int>, height: real,
                   radialSegments: int, heightSegments: int, i: nat, y: real,
                   vertexIndex0: nat, ghost cells0: nat)
    returns (vertexIndex: nat, ghost cells: nat)
    requires ValidSegments(radialSegments, heightSegments)
    requires i <= heightSegments && y == i as real * (height / heightSegments as real)
    requires vertices.Length == VertexCount(radialSegments, heightSegments)
    requires triangles.Length == TriangleCount(radialSegments, heightSegments)
    requires vertexIndex0 == VertexId(radialSegments, i, 0)
    requires cells0 == CellId(radialSegments, i, 0)
    requires Built(vertices, triangles, height, radialSegments, heightSegments, vertexIndex0, cells0)
    modifies vertices, triangles
    ensures vertexIndex == VertexId(radialSegments, i + 1, 0)
    ensures cells == CellId(radialSegments, Min(i + 1, heightSegments), 0)
    ensures Built(vertices, triangles, height, radialSegments, heightSegments, vertexIndex, cells)
  {
    vertexIndex, cells := vertexIndex0, cells0;
    var j := 0;
    while j <= radialSegments
      invariant 0 <= j <= radialSegments + 1
      invariant vertexIndex == VertexId(radialSegments, i, j)
      invariant cells == CellId(radialSegments, i, if i < heightSegments then Min(j, radialSegments) else 0)
      invariant Built(vertices, triangles, height, radialSegments, heightSegments, vertexIndex, cells)
    {
      WriteVertex(vertices, height, radialSegments, heightSegments, i, j, y, vertexIndex);

      if i < heightSegments && j < radialSegments {
        var start := vertexIndex;
        var next := start + radialSegments + 1;
        WriteQuad(triangles, radialSegments, heightSegments, i, j, start, next);
        assert 6 * cells == CellBase(radialSegments, i, j);
        cells := cells + 1;
      }

      vertexIndex := vertexIndex + 1;
      j := j + 1;
    }
  }

  /** The vertex write of ring `i`, segment `j`: its height `y` and texture
      coordinates `(j / radialSegments, i / heightSegments)` at slot
      `vertexIndex`; nothing else changes. */
  method WriteVertex(vertices: array<TubeVertex>, height: real, radialSegments: int, heightSegments: int,
                     i: nat, j: nat, y: real, vertexIndex: nat)
    requires ValidSegments(radialSegments, heightSegments)
    requires i <= heightSegments && j <= radialSegments
    requires y == i as real * (height / heightSegments as real)
    requires vertices.Length == VertexCount(radialSegments, heightSegments)
    requires vertexIndex == VertexId(radialSegments, i, j)
    modifies vertices
    ensures vertexIndex < vertices.Length
    ensures forall k :: 0 <= k < vertices.Length ==>
      vertices[k] == if k == vertexIndex then ExpectedVertex(height, radialSegments, heightSegments, k)
                     else old(vertices[k])
  {
    UnflatFlat(i, j, radialSegments + 1);
    FlatInBounds(i, j, radialSegments + 1, heightSegments + 1);
    vertices[vertexIndex] := TubeVertex(i, j, y, j as real / radialSegments as real,
                                        i as real / heightSegments as real);
  }

  /** The six index writes of cell (`i`, `j`): triangles
      `(start, next, start + 1)` and `(start + 1, next, next + 1)` at slots
      `6 * (i * radialSegments + j)` onwards; nothing else changes. */
  method WriteQuad(triangles: array<int>, radialSegments: int, heightSegments: int,
                   i: nat, j: nat, start: int, next: int)
    requires ValidSegments(radialSegments, heightSegments)
    requires i < heightSegments && j < radialSegments
    requires triangles.Length == TriangleCount(radialSegments, heightSegments)
    requires start == VertexId(radialSegments, i, j) && next == start + radialSegments + 1
    modifies triangles
    ensures CellBase(radialSegments, i, j) + 6 <= triangles.Length
    ensures forall s :: 0 <= s < triangles.Length ==>
      triangles[s] == if CellBase(radialSegments, i, j) <= s < CellBase(radialSegments, i, j) + 6
                      then ExpectedSlot(radialSegments, s) else old(triangles[s])
  {
    CellBaseIsProduct(radialSegments, i, j);
    CellSlots(radialSegments, heightSegments, i, j);
    var base := 6 * (i * radialSegments + j);
    triangles[base] := start;
    triangles[base + 1] := next;
    triangles[base + 2] := start + 1;
    triangles[base + 3] := start + 1;
    triangles[base + 4] := next;
    triangles[base + 5] := next + 1;
  }

  function Min(a: int, b: int): int
  {
    if a <= b then a else b
  }
}

=== FILE: vectors.dfy ===
/**
 Three-component vectors. Positions, velocities and forces are `real` vectors
 (exact arithmetic stands in for the engine's single-precision floats); grid
 counts are integer vectors.
 */
module Vectors {

  datatype Vec3 = Vec3(x: real, y: real, z: real)

  /** An integer vector, as used for the per-axis spawn counts. */
  datatype Int3 = Int3(x: int, y: int, z: int)

  const Zero: Vec3 := Vec3(0.0, 0.0, 0.0)

  function Add(a: Vec3, b: Vec3): Vec3
  {
    Vec3(a.x + b.x, a.y + b.y, a.z + b.z)
  }

  function Sub(a: Vec3, b: Vec3): Vec3
  {
    Vec3(a.x - b.x, a.y - b.y, a.z - b.z)
  }

  function Scale(a: Vec3, s: real): Vec3
  {
    Vec3(a.x * s, a.y * s, a.z * s)
  }

  /** Component-wise division by a scalar, as `Vector3 / float`. */
  function Div(a: Vec3, s: real): Vec3
    requires s != 0.0
  {
    Vec3(a.x / s, a.y / s, a.z / s)
  }

  function Dot(a: Vec3, b: Vec3): real
  {
    a.x * b.x + a.y * b.y + a.z * b.z
  }

  /** Squared Euclidean length; lengths are compared squared so that no
      square root is needed. */
  function NormSquared(a: Vec3): real
  {
    Dot(a, a)
  }
}
